=== FILE: README.md ===
# EVA OSSO core, modelled in Dafny

EVA OSSO is a browser toy framework with four parts:

- **Leak dispatcher** (`leak.js`): turns a payload into a content-addressed *seed* with a 32-bit rolling fingerprint. It fans the seed out to a fixed catalogue of five sinks (two web storages, IndexedDB, the service-worker cache, a broadcast channel), catching each sink's failure on its own. Every drip is recorded once in a leak history. The last three history hashes become the next seed's *parents*.
- **Seed library** (`seeds.js`): generates seeds with a *DNA* projection of their payload, at most 32 symbols long. With some probability it mutates one key of the payload in place. It plants deep copies of seeds and keeps a library with counters.
- **Rhythm** (`rhythm.js`): holds a BPM value. The value is set from the hour, the network type and a day/night "weather" stand-in, and can be clamped to [40, 200] on request. A cycle phase advances one degree per animation frame and beats every 90 degrees.
- **Orchestrator** (`eva.js`): owns one of each of the above and a listener registry. It gates leaking and seeding on an `initialized` flag and runs the `init`/`destroy` lifecycle.

The model has one Dafny module per source file, plus a shared one:

- `JsValues` (`common.dfy`): JavaScript values, truthiness, property reads, `slice(-n)`, `filter`, and strings as UTF-16 code units.
- `Fingerprints` (`fingerprint.dfy`): `hashData`, with JavaScript's `<<` and 32-bit truncation written out.
- `LeakEngine` (`leak.dfy`), `SeedEngine` (`seeds.dfy`), `RhythmEngine` (`rhythm.dfy`), `EvaCore` (`eva.dfy`).

Each class that the source updates in place is a Dafny `class`: `Leak`, `Seeds`, `Seed`, `Rhythm`, `Eva`. Each has the source's fields, with these exceptions:

- `Rhythm` has no `animationFrameId`. Animation frames are modelled as calls to `Animate`.
- A seed's `type` is called `kind`.
- `Eva`'s sub-modules `Leak`, `Rhythm` and `Seeds` are the fields `leak`, `rhythm` and `seeds`.
- `Leak` and `Seeds` also hold the `stringify` function.

The methods carry field-level `modifies` clauses and state the whole new state. The exception is `Seeds.MutateSeed`, whose frame is the whole seed it mutates; its contract states every field's new value. Loops are `for` loops with invariants, proved equal to specification functions:

- `hashData` is proved equal to `Fingerprint`.
- `generateDNA` is proved equal to `Dna`.
- The `forEach` of `drip` is proved equal to per-destination `Attempt`.

Environment inputs become parameters:

- the clock, `Math.random`, ids, the hour, `navigator.connection.effectiveType` and `window.Eva.Rhythm.currentBPM`;
- whether each sink writer threw, as a `write` outcome function;
- `JSON.stringify`, as an uninterpreted `stringify` function fixed when an object is constructed;
- the result of `JSON.parse` in `import`, as an `Option<seq<Seed>>`.

Three behaviours of the code are worth knowing before reading the contracts:

- **Lineage can hold a seed's own fingerprint.** The parents are the last three history hashes, so leaking the same string twice puts the second seed's own hash among its parents (`LeakEngine.LineageMayRepeatOwnHash`, `LeakEngine.DripTwice`).
- **Payloads are hashed as `JSON.stringify` writes them.** No key reordering happens first, so the model hashes `stringify(data)` as it is.
- **`mutateSeed` returns nothing.** Whether a mutation happened is visible only in the seed's counters, and the model states it that way.

## Model

| member | source | states |
|---|---|---|
| JsValues.BpmStamp | leak.js:79 | the stamped BPM is the rhythm's BPM when that is present and non-zero, and exactly 120 when it is absent or zero |
| JsValues.Truthy | eva.js:84 | JavaScript truthiness of a property read: undefined, null, false, 0 and the empty string are falsy; the properties are stated by `Eva.SeedingEnabled`, `SyncedBpm` and the sync lemmas |
| JsValues.Filter | eva.js:109-120 | `filter` keeps at most as many elements as it is given, and only ones satisfying the predicate; `FilterAppend` and `FilterMembership` state order and membership |
| JsValues.Last | leak.js:111 | `slice(-n)` for a positive n keeps the last min(n, length) elements, in order |
| JsValues.FilterAppend | eva.js:109-111 | filtering distributes over concatenation, so the kept entries stay in their original order |
| JsValues.FilterMembership | eva.js:119-120 | an entry survives filtering exactly when it was present and satisfies the predicate |
| JsValues.CodeUnits | leak.js:93 | `charCodeAt` sees the character itself for a BMP character; above it, exactly two units, a high surrogate then a low surrogate, that decode back to the character |
| JsValues.Utf16 | leak.js:92 | the code-unit length of a string lies between its character count and twice that |
| Fingerprints.ShiftLeft5 | leak.js:94 | `h << 5`: both the operand and the result are truncated to signed 32 bits; `StepIsJavaRecurrence` states what it computes |
| Fingerprints.SourceStep | leak.js:94-95 | one iteration of the source loop; `StepIsJavaRecurrence` proves it is the Java step |
| Fingerprints.JavaStep | leak.js:94-95 | the recurrence `ToInt32(h * 31 + c)`, the reference the source step is proved against |
| Fingerprints.ToInt32 | leak.js:95 | the 32-bit conversion lands in [-2^31, 2^31) and is congruent to its input modulo 2^32 |
| Fingerprints.Int32Congruent | leak.js:95 | two 32-bit values congruent modulo 2^32 are equal |
| Fingerprints.StepIsJavaRecurrence | leak.js:94-95 | `((h << 5) - h) + c`, truncated to 32 bits, equals Java's `ToInt32(h * 31 + c)` |
| Fingerprints.RollingHash | leak.js:91-96 | the accumulated hash is always a signed 32-bit integer |
| Fingerprints.Hex | leak.js:97 | `toString(16)` yields at least one digit |
| Fingerprints.HexRoundTrip | leak.js:97 | reading the rendered hexadecimal back gives the number |
| Fingerprints.HexAlphabet | leak.js:97 | every rendered digit is one of `0123456789abcdef` |
| Fingerprints.HexNoLeadingZero | leak.js:97 | the leading digit is `0` only for zero |
| Fingerprints.HexLength | leak.js:97 | a number below 16^k renders in at most k digits |
| Fingerprints.Fingerprint | leak.js:90-98 | `hashData` as a function of the string; `HashData` proves the loop computes it and `FingerprintShape` gives its form |
| Fingerprints.FingerprintShape | leak.js:90-98 | a fingerprint is `eva_` followed by 1 to 8 lowercase hex digits with no leading zero, denoting the absolute value of the Java-recurrence hash |
| Fingerprints.FingerprintOfMinInt32 | leak.js:97 | the absolute value of -2^31 renders in full as `eva_80000000` |
| Fingerprints.FingerprintOfEmpty | leak.js:91-97 | the empty string hashes to `eva_0` |
| Fingerprints.HashData | leak.js:90-98 | the loop with the source's shift-and-subtract step computes exactly the fingerprint of its input |
| LeakEngine.SinkFor | leak.js:45-53 | a destination is routed to no writer exactly when its type is none of the four known ones, and to localStorage exactly for web storage named `localStorage`, the choice `toWebStorage` makes at leak.js:119 |
| LeakEngine.Hashes | leak.js:111 | the mapped hashes are the history entries' `seed` fields, one per entry, in order |
| LeakEngine.SeedJson | leak.js:75-84 | the object `JSON.stringify(seed)` serialises, with the keys in `createSeed`'s order (data, hash, timestamp, bpm, version, license, parents, id); the byte count of leak.js:60 and 64 is the UTF-16 length of its serialisation, so it depends on that order |
| LeakEngine.Attempt | leak.js:43-56 | the outcome names its destination; a destination of unknown type is ignored; otherwise the outcome names the routed writer and is a success exactly when that writer returned normally |
| LeakEngine.TotalSizeAppend | leak.js:60-65 | appending a history entry adds exactly its size to the total, the invariant `bytesTransferred == Σ size` rests on this |
| LeakEngine.TotalSize | leak.js:60-65 | the sum of the history entries' sizes, which `Valid` keeps equal to `bytesTransferred`; `TotalSizeAppend` states how a drip changes it |
| LeakEngine.Deliver | leak.js:41-57 | every target is attempted in list order, and each outcome depends on that destination alone, so one failure never stops the rest |
| LeakEngine.Leak.constructor | leak.js:9-16 | rate 0.1, no destinations, inactive, zero counters and empty history, which satisfies the bookkeeping invariant |
| LeakEngine.Leak.Canonical | leak.js:74 | a string payload is hashed as it is; anything else is serialised |
| LeakEngine.Leak.AutoDiscover | leak.js:21-32 | installs and returns the fixed five-entry catalogue |
| LeakEngine.Leak.SeedSize | leak.js:60-64 | `JSON.stringify(seed).length`, counted in UTF-16 units; `Record` and `Drip` add exactly this to the bytes and store it in the history |
| LeakEngine.Leak.Record | leak.js:59-65 | the count rises by 1, the bytes by the seed's size, and exactly one entry with the seed's hash and size is appended; the bookkeeping invariant is kept |
| LeakEngine.Leak.ParentHashes | leak.js:110-112 | the parents are the hashes of the last min(3, n) history entries, oldest first |
| LeakEngine.Leak.CreateSeed | leak.js:73-85 | the seed's hash is the fingerprint of its canonical data; its parents are the current recent hashes; version 1.0, license 4F, BPM stamp |
| LeakEngine.Leak.Drip | leak.js:37-68 | inactive: returns null and changes nothing. Active: attempts the explicit destination or every registered one; then adds 1 to the count, appends one history entry carrying the returned hash, and adds exactly that entry's size to the bytes. Keeps the count equal to the history length and the bytes equal to the sum of the entry sizes |
| LeakEngine.Leak.Start | leak.js:198-203 | active, the rate is the argument (default 0.1), and the destinations are the catalogue, the same on every call |
| LeakEngine.Leak.Stop | leak.js:208-211 | clears `active` and nothing else |
| LeakEngine.Leak.Stats | leak.js:216-225 | the counters as they are, a destination count equal to the number of destinations, and the last min(10, n) history entries in order |
| LeakEngine.LineageMayRepeatOwnHash | leak.js:82-112 | whatever the history before, once a drip of a string has been recorded, the next seed's parents include that string's fingerprint |
| LeakEngine.DripTwice | leak.js:37-112 | two drips over any history, with any clocks, ids, rhythm and sink outcomes, of payloads with the same canonical text return the same receipt, the fingerprint of that text; the second seed has its own hash among its parents |
| SeedEngine.Dna | seeds.js:60-70 | the DNA of a serialised payload; its length, symbols and alphabet are stated by `DnaShape`, and `Seeds.GenerateDna` proves the loop computes it |
| SeedEngine.Symbol | seeds.js:66 | `String.fromCharCode(65 + code % 26)` is always an upper-case letter `A`..`Z` |
| SeedEngine.DnaShape | seeds.js:60-70 | the DNA has min(32, length) symbols; symbol k is `'A' + code_k % 26`, always in `A`..`Z` |
| SeedEngine.DnaSeesOnlyPrefix | seeds.js:69 | payloads whose first 32 code units agree have the same DNA |
| SeedEngine.PickIndex | seeds.js:84 | `Math.floor(r * n)` for r in [0, 1) is a valid key index |
| SeedEngine.MutateBoolTwice | seeds.js:104-105 | a boolean mutation is a flip, so two of them restore the value |
| SeedEngine.MutateValue | seeds.js:99-108 | `mutateValue`'s four branches; the lemmas below state each |
| SeedEngine.MutateStringExtends | seeds.js:102-103 | a mutated string is exactly the original, then `_mutated_`, then the suffix |
| SeedEngine.MutateNumberBounded | seeds.js:100-101 | a mutated number moves by at most a tenth of its magnitude (exact reals) |
| SeedEngine.MutateOtherUnchanged | seeds.js:107 | values that are not numbers, strings or booleans come back unchanged |
| SeedEngine.MutateData | seeds.js:81-86 | the payload after a successful draw; `MutateObjectAtMostOneKey`, `MutateArrayAtMostOneItem` and `MutateDataKeepsKeyless` state what changes |
| SeedEngine.MutateObjectAtMostOneKey | seeds.js:81-86 | on an object, a successful draw keeps the keys, gives the key at the drawn index `PickIndex(keyPick, length)` its mutated value and leaves every other key as it was |
| SeedEngine.MutateArrayAtMostOneItem | seeds.js:81-86 | on an array, a successful draw gives the element at the drawn index `PickIndex(keyPick, length)` its mutated value and leaves every other element as it was |
| SeedEngine.MutateDataKeepsKeyless | seeds.js:81-83 | an empty object or array, or a payload that is not an object, is kept |
| SeedEngine.Seed.constructor | seeds.js:28-37 | a fresh seed is at generation 1 with no mutations |
| SeedEngine.Seed.Copy | seeds.js:130 | the copy has every field of the original |
| SeedEngine.Seeds.constructor | seeds.js:9-15 | zero counters, an empty library and mutation rate 0.1 |
| SeedEngine.Seeds.GenerateDna | seeds.js:60-70 | the loop computes the DNA of the serialised payload: min(32, length) symbols in `A`..`Z` |
| SeedEngine.Seeds.MutateSeed | seeds.js:75-94 | a draw at or above the rate leaves the seed untouched. Otherwise both counters rise by exactly 1, at most one key of the payload changes, and the DNA is recomputed from the new payload |
| SeedEngine.Seeds.Generate | seeds.js:20-48 | appends exactly the returned fresh seed and adds 1 to `generated`. Type defaults to `pageview`, data to `{}`. Without a successful mutation the seed is at generation 1 with 0 mutations, and `generation == mutations + 1` always holds |
| SeedEngine.Seeds.Plant | seeds.js:113-162 | without a container, returns null and changes no counter. Otherwise a copy is mutated when the rate is positive, and `planted` and `growing` each rise by 1. The seed passed in and the library are never modified |
| SeedEngine.Seeds.Stats | seeds.js:203-212 | the counters, the library size and the last min(5, n) seeds in order |
| SeedEngine.Seeds.Clear | seeds.js:217-223 | empties the library and zeroes all counters; the mutation rate is not touched |
| SeedEngine.Seeds.Import | seeds.js:235-246 | success iff the text parsed; then the library gains the parsed seeds at its end and `generated` rises by their number; a parse failure changes nothing |
| RhythmEngine.ClampBpm | rhythm.js:192 | the result lies in [40, 200], equals the input when that is in range, and is the nearer bound otherwise |
| RhythmEngine.ClampIdempotent | rhythm.js:192 | clamping twice is clamping once |
| RhythmEngine.TimeOfDayBpm | rhythm.js:48-58 | 90 exactly for hours 6 to 17, and 60 exactly otherwise |
| RhythmEngine.NetworkBpm | rhythm.js:68-75 | the network BPM always lies in [40, 140] |
| RhythmEngine.NetworkBpmTable | rhythm.js:68-75 | the network BPM is 120 exactly for types outside `4g`, `3g`, `2g`, `slow-2g` |
| RhythmEngine.WeatherNight | rhythm.js:86 | the night test `hour < 6` or `hour > 18`; `HourEighteenDisagrees` compares it with the time-of-day table |
| RhythmEngine.WeatherBpm | rhythm.js:88-91 | for a positive BPM the weather makes it slower at night and faster by day |
| RhythmEngine.HourEighteenDisagrees | rhythm.js:51-86 | hour 18 is night for the time-of-day table and day for the weather test; they agree on every other hour |
| RhythmEngine.SyncedBpm | rhythm.js:26-39 | the BPM after time of day, then network, then weather; `NetworkOverridesTimeOfDay` and `SyncWithNothingEnabled` state its outcomes and `Rhythm.SyncWith` proves the method computes it |
| RhythmEngine.NetworkOverridesTimeOfDay | rhythm.js:29-35 | with time of day and network enabled and weather off, the network BPM wins; without a connection API the time-of-day BPM stays |
| RhythmEngine.SyncWithNothingEnabled | rhythm.js:26-39 | with no factor enabled, syncing leaves the BPM unchanged |
| RhythmEngine.MergeGivenWins | rhythm.js:27 | after the merge a given factor wins and every other factor keeps its old value |
| RhythmEngine.NextPhase | rhythm.js:128 | the next phase lies in [0, 360) |
| RhythmEngine.IsBeat | rhythm.js:131 | a beat fires on a phase divisible by 90; `PhaseStep` and `FourBeatsPerTurn` state which steps fire |
| RhythmEngine.PhaseStep | rhythm.js:128-131 | stepping the phase of step count q gives the phase of q + 1, which beats exactly when q + 1 is a multiple of 90 |
| RhythmEngine.BeatsFrom | rhythm.js:125-133 | the beats fired by n running frames; `BeatsClosedForm` counts them |
| RhythmEngine.BeatsClosedForm | rhythm.js:128-133 | from a phase q mod 360, n running steps fire as many beats as there are multiples of 90 in (q, q + n] |
| RhythmEngine.FourBeatsPerTurn | rhythm.js:128-133 | every 360 consecutive running steps fire exactly four beats, from any phase |
| RhythmEngine.Rhythm.constructor | rhythm.js:9-21 | BPM 120, base 120, all four factors off, phase 0, not running |
| RhythmEngine.Rhythm.SyncTimeOfDay | rhythm.js:48-58 | the BPM becomes the time-of-day BPM of the hour |
| RhythmEngine.Rhythm.SyncNetworkSpeed | rhythm.js:63-77 | without a connection API the BPM is unchanged; otherwise it becomes the network table's value |
| RhythmEngine.Rhythm.SyncWeather | rhythm.js:83-93 | the BPM is scaled by 0.9 at night (before hour 6 or after hour 18) and by 1.1 by day |
| RhythmEngine.Rhythm.SyncWith | rhythm.js:26-42 | the factors are merged with the given ones winning; then time of day, network and weather apply in that order |
| RhythmEngine.Rhythm.Animate | rhythm.js:125-136 | a no-op when stopped. Otherwise the phase steps by one modulo 360 and a beat fires exactly on multiples of 90. The phase stays in [0, 360) |
| RhythmEngine.Rhythm.Start | rhythm.js:105-109 | sets running and runs one frame; the phase is not reset |
| RhythmEngine.Rhythm.Stop | rhythm.js:114-120 | clears the running flag only |
| RhythmEngine.Rhythm.SetBpm | rhythm.js:191-194 | the BPM becomes the requested value clamped to [40, 200] |
| EvaCore.Callbacks | eva.js:121 | one callback per selected listener, in order |
| EvaCore.Recipients | eva.js:117-121 | the callbacks a dispatch calls; `RecipientsMembership`, `RecipientsInRegistrationOrder` and `RecipientsAfterOn` state which and in what order |
| EvaCore.RecipientsMembership | eva.js:117-121 | a callback is called by a dispatch exactly when it is registered under that event name |
| EvaCore.RecipientsInRegistrationOrder | eva.js:119-121 | dispatch calls the earlier-registered listeners before the later ones |
| EvaCore.RecipientsAfterOn | eva.js:101-121 | after `on(e, cb)`, dispatching `e` calls everything it did before and then `cb`; other events are unaffected |
| EvaCore.Unsubscribe | eva.js:108-112 | what `off` leaves; `UnsubscribeMembership`, `UnsubscribeKeepsOrder` and `UnsubscribeIdempotent` state its properties |
| EvaCore.UnsubscribeMembership | eva.js:108-112 | `off` removes exactly the entries with that event name and callback |
| EvaCore.UnsubscribeKeepsOrder | eva.js:108-112 | `off` keeps the surviving entries in their original order |
| EvaCore.UnsubscribeIdempotent | eva.js:108-112 | `off` twice is `off` once |
| EvaCore.OffUndoesOn | eva.js:101-112 | `on` then `off` with the same pair removes every trace of that pair |
| EvaCore.InitFactorsWin | eva.js:38-42 | whatever the rhythm's factors were, after `init`'s merge time of day and network are on and weather is off |
| EvaCore.Eva.constructor | eva.js:9-28 | version 1.0, license 4F, not initialised, the default state, no listeners, and fresh sub-modules in their initial states: an inactive dispatcher with rate 0.1, zero counters and empty history; a stopped rhythm at 120 BPM, phase 0, every factor off; an empty library with rate 0.1 and zero counters |
| EvaCore.Eva.On | eva.js:101-103 | appends exactly one entry at the end of the listener list |
| EvaCore.Eva.Off | eva.js:108-112 | the listener list loses exactly the matching entries |
| EvaCore.Eva.Init | eva.js:33-51 | merges the options over the state, options winning; starts the dispatcher with the state's leak rate; the network BPM, or the hour's BPM without a connection API, becomes the rhythm's BPM; starts the rhythm; sets `initialized`; notifies the `eva-initialized` listeners |
| EvaCore.Eva.StartLeaking | eva.js:56-61 | restarts the dispatcher and notifies only when initialised; otherwise changes nothing |
| EvaCore.Eva.StopLeaking | eva.js:66-69 | stops the dispatcher unconditionally and notifies |
| EvaCore.Eva.Leak | eva.js:74-78 | undefined without touching the dispatcher when not initialised; otherwise the dispatcher's drip: null when it has been stopped, and otherwise a seed with the canonical data, its fingerprint, the last three hashes as parents, the host's timestamp, BPM stamp and id, version 1.0 and license 4F, with the count, bytes and history updated by exactly that seed and every registered destination attempted |
| EvaCore.Eva.SeedingEnabled | eva.js:84 | the gate `initialized && state.seeds` of `generateSeed` and `plantSeed` |
| EvaCore.Eva.GenerateSeed | eva.js:83-87 | acts only when initialised and `state.seeds` is truthy; otherwise it returns null, standing for the source's `undefined` (`generate` never returns null). When enabled it always generates with mutation requested: one fresh seed appended to the library, stamped with the host's clock, BPM and id, the `pageview` default kind and the `{}` default payload, mutated exactly when the draw is below the library's rate |
| EvaCore.Eva.PlantSeed | eva.js:92-96 | returns undefined (`None`) without touching the library when seeding is disabled, and null (`Some(null)`) when the container is missing; both cases leave the counters alone. With seeding enabled and the container found, it plants a copy whose mutation follows the given rate, 0.1 by default: with a positive rate and a draw below it, both counters rise by 1 and one key changes; otherwise the copy equals the seed. The seed passed in is never modified |
| EvaCore.Eva.Import | eva.js:202-214 | true exactly when an argument is given. Then `data.state` is merged over the state, and the seeds are imported when `data.seeds` is truthy. A failed seed parse still reports true |
| EvaCore.Eva.Destroy | eva.js:219-226 | no listeners, not initialised, dispatcher and rhythm stopped, seed library and counters cleared |

## Left out

- The sink writers `toWebStorage`, `toIndexedDB`, `toCache` and `toP2P` (leak.js:117-193) are browser storage, IndexedDB, Cache API and BroadcastChannel calls. Each is reduced to whether it returned normally or threw. Their own inner `try`/`catch` means a throw rarely reaches `drip`; the `write` outcome covers both cases.
- JSON text is not modelled. `JSON.stringify` is an uninterpreted function, and `JSON.parse` in `import` is its result. Payloads are Dafny values, so `undefined` payloads are not modelled either: `hashData` would throw on the `undefined` that `JSON.stringify(undefined)` returns.
- `Date.now`, `Math.random`, `generateId` and the random suffixes are parameters. The hour is read once per `syncWith` call, while the source reads the clock separately in `syncTimeOfDay` and `syncWeather`.
- Floating point: BPMs and mutated numbers are exact reals, with no IEEE rounding and no NaN. This applies to `SyncWeather`'s ×0.9/×1.1 and `mutateValue`'s numeric perturbation.
- `getBeatInterval`, `getSwing`, `applySwingToElement` and `getStatus` (rhythm.js:98-186) are left out. They are float division, `Math.sin` and a DOM transform.
- `onBeat`'s `CustomEvent`, `requestAnimationFrame` rescheduling and `cancelAnimationFrame` are not modelled. `Animate` is one frame, and `Start` runs the first one.
- DOM code is not modelled: the element creation in `plant`, the timers of `grow`, `harvest` and `harvestAll` (seeds.js:137-198), and the DOM event of `dispatchEvent` (eva.js:123-125). `plant`'s container lookup becomes a flag saying whether it was found.
- `getDashboard`, `showDashboard`, `syncWithPeer` and `export` (eva.js:131-197) and `Seeds.export` (seeds.js:228-230) are left out. They are console output, BroadcastChannel messaging and JSON text.
- What the listeners' callbacks do is not modelled, including re-entrant calls into the orchestrator. The model returns the callbacks a dispatch calls, in order.
- SeedEngine.Seeds.MutateSeed: a `null` payload is excluded by its precondition. The same precondition is inherited by `SeedEngine.Seeds.Generate`, `SeedEngine.Seeds.Plant`, `EvaCore.Eva.GenerateSeed` and `EvaCore.Eva.PlantSeed`, on the paths where they mutate. `typeof null === 'object'` makes `Object.keys(null)` throw after both counters have been incremented.
- SeedEngine.Seeds.Generate: the caller's payload object is shared with the new seed in the source, so a mutation also changes the caller's object. The model's payload is a value and does not capture that aliasing.
- RhythmEngine.Rhythm.SyncWith: a factor given explicitly as `undefined` is not modelled, because values have no `undefined`. In the source, `{...old, ...given}` copies such a factor and turns it off; the model can only express a factor that is missing, which keeps the old one.
- EvaCore.Eva.Init: an option given explicitly as `undefined` is not modelled. In the source it overrides the state, so `init({leakRate: undefined})` starts the dispatcher at the default 0.1; the model can only express a missing option, which keeps the state's 0.05.
- EvaCore.Eva.Import: properties of `data.state` whose value is `undefined` are not modelled. In the source they override the state in the merge.
- JsValues.Utf16: the model covers well-formed strings only. A JavaScript string may hold a lone surrogate, for example a string payload hashed directly by `hashData`, and a Dafny `char` cannot represent one.
- Object keys are in the order `Object.keys` enumerates them. This is the order of `Obj`'s field list, and the key drawn for mutation is an index into it.
- `window.Eva`, `window.Leak`, `window.Seeds` and `window.Rhythm` are not modelled. `window.Eva.Rhythm.currentBPM` is an optional input defaulting to 120.

=== FILE: common.dfy ===
/** JavaScript values and small sequence helpers shared by every module of the framework. */
module JsValues {

  datatype Option<+T> = None | Some(value: T)

  /** The value inside `o`, or `default` when the argument was left undefined. */
  function OrDefault<T>(o: Option<T>, default: T): T {
    match o
    case Some(v) => v
    case None => default
  }

  /**
   * A JSON-like JavaScript value. An object keeps its properties in the order
   * `Object.keys` enumerates them; `undefined` is a missing property, not a value.
   */
  datatype Value =
    | Null
    | Bool(b: bool)
    | Num(x: real)
    | Str(s: string)
    | Arr(items: seq<Value>)
    | Obj(fields: seq<(string, Value)>)

  /** A property read `m.key` on a plain object; a missing key reads as undefined. */
  function Get(m: map<string, Value>, key: string): Option<Value> {
    if key in m then Some(m[key]) else None
  }

  /** JavaScript truthiness of a property read (NaN is not modelled). */
  predicate Truthy(v: Option<Value>) {
    match v
    case None => false
    case Some(Null) => false
    case Some(Bool(b)) => b
    case Some(Num(x)) => x != 0.0
    case Some(Str(s)) => s != ""
    case Some(_) => true
  }

  /** `window.Eva?.Rhythm?.currentBPM || 120`, stamped on every seed: the rhythm's BPM, or 120 when it is absent or zero. */
  function BpmStamp(rhythmBpm: Option<real>): (bpm: real)
    ensures bpm == 120.0 || rhythmBpm == Some(bpm)
    ensures rhythmBpm.Some? && rhythmBpm.value != 0.0 ==> bpm == rhythmBpm.value
    ensures rhythmBpm.None? || rhythmBpm.value == 0.0 ==> bpm == 120.0
  {
    if rhythmBpm.Some? && rhythmBpm.value != 0.0 then rhythmBpm.value else 120.0
  }

  function Min(a: int, b: int): int {
    if a <= b then a else b
  }

  function Abs(x: int): nat {
    if x < 0 then -x else x
  }

  /**
   * `s.slice(-n)` for a positive `n`: the last min(n, |s|) elements of `s`, in order.
   * (`slice(-0)` would return all of `s`; every caller passes 3, 5 or 10.)
   */
  function Last<T>(s: seq<T>, n: nat): (r: seq<T>)
    requires n >= 1
    ensures |r| == Min(n, |s|)
    ensures r == s[|s| - |r|..]
  {
    if |s| <= n then s else s[|s| - n..]
  }

  /** `s.filter(keep)`: the elements of `s` that satisfy `keep`, in their original order. */
  function Filter<T>(s: seq<T>, keep: T -> bool): (r: seq<T>)
    ensures |r| <= |s|
    ensures forall k :: 0 <= k < |r| ==> keep(r[k])
  {
    if s == [] then [] else (if keep(s[0]) then [s[0]] else []) + Filter(s[1..], keep)
  }

  /** Filtering distributes over concatenation, so it never reorders what it keeps. */
  lemma {:induction false} FilterAppend<T>(s: seq<T>, t: seq<T>, keep: T -> bool)
    ensures Filter(s + t, keep) == Filter(s, keep) + Filter(t, keep)
  {
    if s == [] {
      assert s + t == t;
    } else {
      var st := s + t;
      var head := if keep(s[0]) then [s[0]] else [];
      assert st[0] == s[0];
      assert st[1..] == s[1..] + t;
      assert Filter(st, keep) == head + Filter(s[1..] + t, keep);
      FilterAppend(s[1..], t, keep);
      assert Filter(s, keep) == head + Filter(s[1..], keep);
    }
  }

  /** An element survives filtering exactly when it was present and satisfies the predicate. */
  lemma {:induction false} FilterMembership<T>(s: seq<T>, keep: T -> bool, x: T)
    ensures x in Filter(s, keep) <==> x in s && keep(x)
  {
    if s != [] {
      assert s == [s[0]] + s[1..];
      FilterMembership(s[1..], keep, x);
    }
  }

  /** The UTF-16 code units of one character (a surrogate pair above the Basic Multilingual Plane). */
  function CodeUnits(c: char): (u: seq<int>)
    ensures 1 <= |u| <= 2
    ensures forall k :: 0 <= k < |u| ==> 0 <= u[k] < 0x1_0000
    ensures (c as int < 0x1_0000) <==> (u == [c as int])
    ensures c as int >= 0x1_0000 ==>
      && |u| == 2
      && 0xD800 <= u[0] < 0xDC00 <= u[1] < 0xE000
      && 0x1_0000 + (u[0] - 0xD800) * 0x400 + (u[1] - 0xDC00) == c as int
  {
    var v := c as int;
    if v < 0x1_0000 then [v]
    else [0xD800 + (v - 0x1_0000) / 0x400, 0xDC00 + (v - 0x1_0000) % 0x400]
  }

  /** A string as JavaScript sees it: `s.length` and `s.charCodeAt(i)` work on these code units. */
  function Utf16(s: string): (u: seq<int>)
    ensures |s| <= |u| <= 2 * |s|
  {
    if s == [] then [] else CodeUnits(s[0]) + Utf16(s[1..])
  }
}

=== FILE: eva.dfy ===
/**
 * The orchestrator of eva.js: it owns one leak dispatcher, one rhythm and one seed
 * library, keeps a list of event listeners, and gates leaking and seeding on having
 * been initialised.
 */
module EvaCore {
  import opened JsValues
  import opened Fingerprints
  import LeakEngine
  import opened SeedEngine
  import opened RhythmEngine

  /** The identity of a callback, as `===` compares it. */
  type Callback = nat

  /** One entry of `listeners`: `{ eventName, callback }`. */
  datatype Listener = Listener(eventName: string, callback: Callback)

  function Callbacks(ls: seq<Listener>): (cbs: seq<Callback>)
    ensures |cbs| == |ls|
    ensures forall k :: 0 <= k < |ls| ==> cbs[k] == ls[k].callback
  {
    seq(|ls|, k requires 0 <= k < |ls| => ls[k].callback)
  }

  /** The callbacks `dispatchEvent(eventName)` calls, in the order they are called. */
  function Recipients(ls: seq<Listener>, eventName: string): seq<Callback> {
    Callbacks(Filter(ls, (l: Listener) => l.eventName == eventName))
  }

  /** What `off(eventName, callback)` leaves of the listener list. */
  function Unsubscribe(ls: seq<Listener>, eventName: string, callback: Callback): seq<Listener> {
    Filter(ls, (l: Listener) => !(l.eventName == eventName && l.callback == callback))
  }

  /** A callback is called by a dispatch exactly when it is registered under that event name. */
  lemma RecipientsMembership(ls: seq<Listener>, eventName: string, cb: Callback)
    ensures cb in Recipients(ls, eventName) <==> Listener(eventName, cb) in ls
  {
    var keep := (l: Listener) => l.eventName == eventName;
    var kept := Filter(ls, keep);
    FilterMembership(ls, keep, Listener(eventName, cb));
    if Listener(eventName, cb) in ls {
      var k :| 0 <= k < |kept| && kept[k] == Listener(eventName, cb);
      assert Callbacks(kept)[k] == cb;
    }
    if cb in Recipients(ls, eventName) {
      var k :| 0 <= k < |kept| && Callbacks(kept)[k] == cb;
      FilterMembership(ls, keep, kept[k]);
      assert kept[k] == Listener(eventName, cb);
    }
  }

  /** Dispatch follows registration order: the listeners of `s` are called before those of `t`. */
  lemma RecipientsInRegistrationOrder(s: seq<Listener>, t: seq<Listener>, eventName: string)
    ensures Recipients(s + t, eventName) == Recipients(s, eventName) + Recipients(t, eventName)
  {
    var keep := (l: Listener) => l.eventName == eventName;
    FilterAppend(s, t, keep);
    var a := Filter(s, keep);
    var b := Filter(t, keep);
    assert Callbacks(a + b) == Callbacks(a) + Callbacks(b);
  }

  /** After `on(e, cb)` a dispatch of `e` calls everything it called before and then `cb`. */
  lemma RecipientsAfterOn(ls: seq<Listener>, e: string, cb: Callback, eventName: string)
    ensures Recipients(ls + [Listener(e, cb)], eventName)
      == Recipients(ls, eventName) + (if e == eventName then [cb] else [])
  {
    RecipientsInRegistrationOrder(ls, [Listener(e, cb)], eventName);
    var keep := (l: Listener) => l.eventName == eventName;
    assert [Listener(e, cb)][1..] == [];
    assert Filter([Listener(e, cb)], keep) == (if e == eventName then [Listener(e, cb)] else []);
  }

  /** `off` removes exactly the entries with that event name and callback. */
  lemma UnsubscribeMembership(ls: seq<Listener>, e: string, cb: Callback, l: Listener)
    ensures l in Unsubscribe(ls, e, cb) <==> l in ls && l != Listener(e, cb)
  {
    FilterMembership(ls, (x: Listener) => !(x.eventName == e && x.callback == cb), l);
  }

  /** `off` keeps the surviving entries in their original order. */
  lemma UnsubscribeKeepsOrder(s: seq<Listener>, t: seq<Listener>, e: string, cb: Callback)
    ensures Unsubscribe(s + t, e, cb) == Unsubscribe(s, e, cb) + Unsubscribe(t, e, cb)
  {
    FilterAppend(s, t, (x: Listener) => !(x.eventName == e && x.callback == cb));
  }

  /** `off` twice is `off` once. */
  lemma {:induction false} UnsubscribeIdempotent(ls: seq<Listener>, e: string, cb: Callback)
    ensures Unsubscribe(Unsubscribe(ls, e, cb), e, cb) == Unsubscribe(ls, e, cb)
  {
    if ls != [] {
      assert ls == [ls[0]] + ls[1..];
      UnsubscribeKeepsOrder([ls[0]], ls[1..], e, cb);
      var head := Unsubscribe([ls[0]], e, cb);
      var tail := Unsubscribe(ls[1..], e, cb);
      assert [ls[0]][1..] == [];
      UnsubscribeKeepsOrder(head, tail, e, cb);
      assert Unsubscribe(head, e, cb) == head by {
        if head != [] {
          assert head == [ls[0]];
        }
      }
      UnsubscribeIdempotent(ls[1..], e, cb);
    }
  }

  /** `on` followed by `off` with the same pair leaves no trace of that pair. */
  lemma OffUndoesOn(ls: seq<Listener>, e: string, cb: Callback)
    ensures Unsubscribe(ls + [Listener(e, cb)], e, cb) == Unsubscribe(ls, e, cb)
  {
    UnsubscribeKeepsOrder(ls, [Listener(e, cb)], e, cb);
    assert [Listener(e, cb)][1..] == [];
  }

  /** The state `{ leakRate: 0.05, protocols: ['http'], seeds: true, sync: true }`. */
  const DefaultState: map<string, Value> := map[
    "leakRate" := Num(0.05),
    "protocols" := Arr([Str("http")]),
    "seeds" := Bool(true),
    "sync" := Bool(true)]

  /** The factors `init` syncs the rhythm with. */
  const InitFactors: map<string, Value> := map[
    "timeOfDay" := Bool(true),
    "networkSpeed" := Bool(true),
    "weather" := Bool(false)]

  /** Whatever the factors were, after merging those of `init` time of day and network are on and weather is off. */
  lemma InitFactorsWin(factors: map<string, Value>)
    ensures Truthy(Get(factors + InitFactors, "timeOfDay")) && Truthy(Get(factors + InitFactors, "networkSpeed"))
    ensures !Truthy(Get(factors + InitFactors, "weather"))
  {
    assert Get(factors + InitFactors, "timeOfDay") == Some(Bool(true));
    assert Get(factors + InitFactors, "networkSpeed") == Some(Bool(true));
    assert Get(factors + InitFactors, "weather") == Some(Bool(false));
  }

  /** The argument of `eva.import(data)`; None when `data` is null or undefined. */
  datatype Snapshot = Snapshot(state: map<string, Value>, seeds: Option<Value>)

  class Eva {
    const version: string
    const license: string
    var initialized: bool
    const leak: LeakEngine.Leak
    const rhythm: Rhythm
    const seeds: Seeds
    var state: map<string, Value>
    var listeners: seq<Listener>

    ghost predicate Valid()
      reads this, leak, rhythm, seeds
    {
      leak.Valid() && rhythm.Valid() && seeds.Valid()
    }

    constructor (stringify: Value -> string)
      ensures Valid() && fresh(leak) && fresh(rhythm) && fresh(seeds)
      ensures version == "1.0" && license == "4F" && !initialized
      ensures state == DefaultState && listeners == []
      ensures !leak.active && leak.leakHistory == [] && leak.destinations == []
      ensures seeds.seedLibrary == [] && seeds.mutationRate == 0.1
      ensures !rhythm.isRunning && rhythm.cyclePhase == 0 && rhythm.currentBPM == 120.0 && rhythm.baseBPM == 120.0
      ensures rhythm.syncFactors == DefaultFactors
      ensures leak.rate == Num(0.1) && leak.leakCount == 0 && leak.bytesTransferred == 0
      ensures seeds.planted == 0 && seeds.growing == 0 && seeds.generated == 0
    {
      version := "1.0";
      license := "4F";
      initialized := false;
      leak := new LeakEngine.Leak(stringify);
      rhythm := new Rhythm();
      seeds := new Seeds(stringify);
      state := DefaultState;
      listeners := [];
    }

    /** `on`: registers a listener at the end of the list. */
    method On(eventName: string, callback: Callback)
      modifies this`listeners
      ensures listeners == old(listeners) + [Listener(eventName, callback)]
    {
      listeners := listeners + [Listener(eventName, callback)];
    }

    /** `off`: drops every entry with this event name and callback. */
    method Off(eventName: string, callback: Callback)
      modifies this`listeners
      ensures listeners == Unsubscribe(old(listeners), eventName, callback)
    {
      listeners := Filter(listeners, (l: Listener) => !(l.eventName == eventName && l.callback == callback));
    }

    /**
     * `init`: merges the options over the state, starts the dispatcher with the state's
     * leak rate, syncs the rhythm with time of day and network and starts it, and then
     * notifies the listeners of "eva-initialized".
     */
    method Init(options: map<string, Value>, hour: int, connection: Option<string>) returns (notified: seq<Callback>)
      requires Valid()
      modifies this`state, this`initialized, leak`active, leak`rate, leak`destinations
      modifies rhythm`syncFactors, rhythm`currentBPM, rhythm`isRunning, rhythm`cyclePhase
      ensures Valid()
      ensures state == old(state) + options && initialized
      ensures leak.active && leak.rate == OrDefault(Get(state, "leakRate"), Num(0.1))
      ensures leak.destinations == LeakEngine.Catalogue
      ensures rhythm.syncFactors == old(rhythm.syncFactors) + InitFactors
      ensures rhythm.currentBPM == if connection.Some? then NetworkBpm(connection.value) else TimeOfDayBpm(hour)
      ensures rhythm.isRunning && rhythm.cyclePhase == NextPhase(old(rhythm.cyclePhase))
      ensures notified == Recipients(listeners, "eva-initialized")
    {
      state := state + options;
      leak.Start(Get(state, "leakRate"));
      ghost var bpm := rhythm.currentBPM;
      rhythm.SyncWith(InitFactors, hour, connection);
      InitFactorsWin(old(rhythm.syncFactors));
      NetworkOverridesTimeOfDay(bpm, rhythm.syncFactors, hour, connection);
      var _ := rhythm.Start();
      initialized := true;
      notified := Recipients(listeners, "eva-initialized");
    }

    /** `startLeaking`: restarts the dispatcher only once initialised. */
    method StartLeaking() returns (notified: seq<Callback>)
      modifies leak`active, leak`rate, leak`destinations
      ensures !initialized ==> unchanged(leak) && notified == []
      ensures initialized ==>
        && leak.active && leak.rate == OrDefault(Get(state, "leakRate"), Num(0.1))
        && leak.destinations == LeakEngine.Catalogue
        && notified == Recipients(listeners, "eva-leaking-started")
    {
      notified := [];
      if initialized {
        leak.Start(Get(state, "leakRate"));
        notified := Recipients(listeners, "eva-leaking-started");
      }
    }

    /** `stopLeaking`: stops the dispatcher whether or not initialised. */
    method StopLeaking() returns (notified: seq<Callback>)
      modifies leak`active
      ensures !leak.active
      ensures notified == Recipients(listeners, "eva-leaking-stopped")
    {
      leak.Stop();
      notified := Recipients(listeners, "eva-leaking-stopped");
    }

    /**
     * `leak`: undefined (outer None) before initialisation, without touching the
     * dispatcher; afterwards the dispatcher's own result, which is null (inner None) once
     * it has been stopped.
     */
    method Leak(data: Value, host: LeakEngine.Host)
      returns (result: Option<Option<string>>, log: seq<LeakEngine.Delivery>, ghost seed: LeakEngine.LeakSeed)
      requires Valid()
      modifies leak`leakCount, leak`bytesTransferred, leak`leakHistory
      ensures Valid()
      ensures !initialized ==> result == None && log == [] && unchanged(leak)
      ensures initialized && !old(leak.active) ==> result == Some(None) && log == [] && unchanged(leak)
      ensures initialized && old(leak.active) ==>
        && seed.data == leak.Canonical(data)
        && seed.hash == Fingerprint(seed.data)
        && seed.parents == old(leak.ParentHashes())
        && seed.timestamp == host.seedTime && seed.bpm == BpmStamp(host.rhythmBpm) && seed.id == host.id
        && seed.version == "1.0" && seed.license == "4F"
        && result == Some(Some(seed.hash))
        && leak.leakCount == old(leak.leakCount) + 1
        && leak.bytesTransferred == old(leak.bytesTransferred) + leak.SeedSize(seed)
        && leak.leakHistory == old(leak.leakHistory) + [LeakEngine.LeakRecord(host.recordTime, seed.hash, leak.SeedSize(seed))]
        && |log| == |leak.destinations|
        && forall k :: 0 <= k < |log| ==> log[k] == LeakEngine.Attempt(leak.destinations[k], seed, host.write)
    {
      if !initialized {
        result, log, seed := None, [], LeakEngine.LeakSeed("", "", 0, 0.0, "", "", [], "");
        return;
      }
      var receipt;
      receipt, log, seed := leak.Drip(data, None, host);
      result := Some(receipt);
    }

    /** The gate of `generateSeed` and `plantSeed`: initialised, with `state.seeds` truthy. */
    predicate SeedingEnabled()
      reads this
    {
      initialized && Truthy(Get(state, "seeds"))
    }

    /**
     * `generateSeed(type, data)`: when seeding is enabled, generates with `mutate: true`.
     * Otherwise the source returns undefined, which is null here: `generate` never returns
     * null, so the two cannot be confused.
     */
    method GenerateSeed(kind: Option<string>, data: Option<Value>, host: SeedHost) returns (seed: Seed?)
      requires Valid()
      requires UnitDraws(host.draws)
      requires SeedingEnabled() && host.draws.chance < seeds.mutationRate ==> !OrDefault(data, Obj([])).Null?
      modifies seeds`seedLibrary, seeds`generated
      ensures Valid()
      ensures !SeedingEnabled() ==> seed == null && unchanged(seeds)
      ensures SeedingEnabled() ==>
        && seed != null && fresh(seed)
        && seeds.seedLibrary == old(seeds.seedLibrary) + [seed]
        && seeds.generated == old(seeds.generated) + 1
        && seed.kind == OrDefault(kind, "pageview") && seed.id == host.id
        && seed.timestamp == host.now && seed.bpm == BpmStamp(host.rhythmBpm)
        && seed.generation == seed.mutations + 1 && seed.dna == Dna(seeds.stringify(seed.data))
        && if host.draws.chance < seeds.mutationRate
           then seed.generation == 2 && seed.data == MutateData(OrDefault(data, Obj([])), host.draws)
           else seed.generation == 1 && seed.data == OrDefault(data, Obj([]))
    {
      seed := null;
      if SeedingEnabled() {
        var options := GenerateOptions(Some(OrDefault(kind, "pageview")), Some(OrDefault(data, Obj([]))), true, None);
        seed := seeds.Generate(options, host);
      }
    }

    /**
     * `plantSeed(seed, container, mutationRate = 0.1)`: undefined (None) when seeding is
     * disabled; otherwise what `plant` returns, which is null when the container is missing.
     */
    method PlantSeed(seed: Seed, containerFound: bool, mutationRate: Option<real>, draws: Draws)
      returns (result: Option<Seed?>)
      requires UnitDraws(draws)
      requires (SeedingEnabled() && containerFound && OrDefault(mutationRate, 0.1) > 0.0
        && draws.chance < OrDefault(mutationRate, 0.1)) ==> !seed.data.Null?
      modifies seeds`planted, seeds`growing
      ensures unchanged(seed)
      ensures !SeedingEnabled() ==> result == None && unchanged(seeds)
      ensures SeedingEnabled() && !containerFound ==> result == Some(null) && unchanged(seeds)
      ensures SeedingEnabled() && containerFound ==>
        && result.Some? && result.value != null
        && var planted := result.value;
        && fresh(planted)
        && seeds.planted == old(seeds.planted) + 1 && seeds.growing == old(seeds.growing) + 1
        && planted.id == seed.id && planted.kind == seed.kind
        && planted.timestamp == seed.timestamp && planted.bpm == seed.bpm
        && var rate := OrDefault(mutationRate, 0.1);
           if rate > 0.0 && draws.chance < rate
           then planted.mutations == seed.mutations + 1 && planted.generation == seed.generation + 1
                && planted.data == MutateData(seed.data, draws) && planted.dna == Dna(seeds.stringify(planted.data))
           else planted.mutations == seed.mutations && planted.generation == seed.generation
                && planted.data == seed.data && planted.dna == seed.dna
    {
      result := None;
      if SeedingEnabled() {
        var planted := seeds.Plant(seed, containerFound, OrDefault(mutationRate, 0.1), draws);
        result := Some(planted);
      }
    }

    /**
     * `import`: merges `data.state` over the state and imports `data.seeds` when it is
     * truthy. It reports success even when the seeds fail to parse; only a null or
     * undefined argument, which makes the property read throw, reports failure.
     */
    method Import(data: Option<Snapshot>, parsed: Option<seq<Seed>>) returns (ok: bool)
      requires Valid()
      modifies this`state, seeds`seedLibrary, seeds`generated
      ensures Valid()
      ensures ok <==> data.Some?
      ensures data.None? ==> state == old(state) && unchanged(seeds)
      ensures data.Some? ==> state == old(state) + data.value.state
      ensures data.Some? && Truthy(data.value.seeds) && parsed.Some? ==>
        seeds.seedLibrary == old(seeds.seedLibrary) + parsed.value
        && seeds.generated == old(seeds.generated) + |parsed.value|
      ensures !(data.Some? && Truthy(data.value.seeds) && parsed.Some?) ==> unchanged(seeds)
    {
      if data.None? {
        return false;
      }
      state := state + data.value.state;
      if Truthy(data.value.seeds) {
        var _ := seeds.Import(parsed);
      }
      ok := true;
    }

    /** `destroy`: stops the dispatcher and the rhythm, clears the library, drops every listener. */
    method Destroy()
      requires Valid()
      modifies this`listeners, this`initialized, leak`active, rhythm`isRunning
      modifies seeds`seedLibrary, seeds`generated, seeds`planted, seeds`growing
      ensures Valid()
      ensures listeners == [] && !initialized && !leak.active && !rhythm.isRunning
      ensures seeds.seedLibrary == [] && seeds.generated == 0 && seeds.planted == 0 && seeds.growing == 0
    {
      leak.Stop();
      rhythm.Stop();
      seeds.Clear();
      listeners := [];
      initialized := false;
    }
  }
}

=== FILE: fingerprint.dfy ===
/**
 * The content fingerprint of the leak dispatcher (`hashData` in leak.js): a rolling
 * 32-bit polynomial hash over the UTF-16 code units of a string, rendered as
 * "eva_" followed by the lowercase hexadecimal of its absolute value.
 */
module Fingerprints {
  import opened JsValues

  const TwoTo31: int := 0x8000_0000
  const TwoTo32: int := 0x1_0000_0000

  /** ECMAScript ToInt32: the unique signed 32-bit integer congruent to `x` modulo 2^32. */
  function ToInt32(x: int): (r: int)
    ensures -TwoTo31 <= r < TwoTo31
    ensures (r - x) % TwoTo32 == 0
  {
    (x + TwoTo31) % TwoTo32 - TwoTo31
  }

  /** JavaScript `h << 5` on a number: the operand and the result are both signed 32-bit. */
  function ShiftLeft5(h: int): int {
    ToInt32(ToInt32(h) * 32)
  }

  /** One iteration of the source loop: `hash = ((hash << 5) - hash) + char; hash = hash & hash`. */
  function SourceStep(h: int, code: int): int {
    ToInt32(ShiftLeft5(h) - h + code)
  }

  /** The recurrence of Java's `String.hashCode`: `h := ToInt32(h * 31 + code)`. */
  function JavaStep(h: int, code: int): int {
    ToInt32(h * 31 + code)
  }

  /** Two signed 32-bit integers that are congruent modulo 2^32 are equal. */
  lemma Int32Congruent(a: int, b: int)
    requires -TwoTo31 <= a < TwoTo31 && -TwoTo31 <= b < TwoTo31
    requires (a - b) % TwoTo32 == 0
    ensures a == b
  {
    var q := (a - b) / TwoTo32;
    assert a - b == TwoTo32 * q;
  }

  /** The shift-and-subtract step of the source computes the Java recurrence. */
  lemma StepIsJavaRecurrence(h: int, code: int)
    requires -TwoTo31 <= h < TwoTo31
    ensures SourceStep(h, code) == JavaStep(h, code)
  {
    var s := ToInt32(h * 32);
    assert ToInt32(h) == h by {
      Int32Congruent(ToInt32(h), h);
    }
    var r := SourceStep(h, code);
    var j := JavaStep(h, code);
    var q1 := (s - h * 32) / TwoTo32;
    var q2 := (r - (s - h + code)) / TwoTo32;
    var q3 := (j - (h * 31 + code)) / TwoTo32;
    assert s - h * 32 == TwoTo32 * q1;
    assert r - (s - h + code) == TwoTo32 * q2;
    assert j - (h * 31 + code) == TwoTo32 * q3;
    assert r - j == TwoTo32 * (q1 + q2 - q3);
    Int32Congruent(r, j);
  }

  /** The hash accumulated over `units`, left to right, starting from 0. */
  function RollingHash(units: seq<int>): (h: int)
    ensures -TwoTo31 <= h < TwoTo31
  {
    if units == [] then 0 else JavaStep(RollingHash(units[..|units| - 1]), units[|units| - 1])
  }

  const HexDigits: string := "0123456789abcdef"

  /** `n.toString(16)`: lowercase hexadecimal without leading zeros. */
  function Hex(n: nat): (s: string)
    ensures |s| >= 1
    decreases n
  {
    if n < 16 then [HexDigits[n]] else Hex(n / 16) + [HexDigits[n % 16]]
  }

  function DigitValue(c: char): int {
    if '0' <= c <= '9' then c as int - '0' as int
    else if 'a' <= c <= 'f' then c as int - 'a' as int + 10
    else -1
  }

  /** The number a string of hexadecimal digits denotes (the reading direction of `Hex`). */
  function HexValue(s: string): int {
    if s == [] then 0 else HexValue(s[..|s| - 1]) * 16 + DigitValue(s[|s| - 1])
  }

  function Pow16(k: nat): nat {
    if k == 0 then 1 else 16 * Pow16(k - 1)
  }

  /** Reading back the rendered digits gives the number again. */
  lemma {:induction false} HexRoundTrip(n: nat)
    ensures HexValue(Hex(n)) == n
    decreases n
  {
    if n < 16 {
      assert DigitValue(HexDigits[n]) == n;
      assert Hex(n)[..0] == [];
    } else {
      HexRoundTrip(n / 16);
      var s := Hex(n);
      assert s[..|s| - 1] == Hex(n / 16);
      assert DigitValue(HexDigits[n % 16]) == n % 16;
    }
  }

  /** Every symbol is a lowercase hexadecimal digit. */
  lemma {:induction false} HexAlphabet(n: nat)
    ensures forall k :: 0 <= k < |Hex(n)| ==> Hex(n)[k] in HexDigits
    decreases n
  {
    if n >= 16 {
      HexAlphabet(n / 16);
    }
  }

  /** The leading digit is `0` only for the number zero itself. */
  lemma {:induction false} HexNoLeadingZero(n: nat)
    ensures Hex(n)[0] == '0' <==> n == 0
    decreases n
  {
    if n >= 16 {
      HexNoLeadingZero(n / 16);
      assert Hex(n)[0] == Hex(n / 16)[0];
    }
  }

  /** A number below 16^k needs at most k digits. */
  lemma {:induction false} HexLength(n: nat, k: nat)
    requires 1 <= k && n < Pow16(k)
    ensures |Hex(n)| <= k
    decreases n
  {
    if n >= 16 {
      assert k >= 2;
      HexLength(n / 16, k - 1);
    }
  }

  /** `hashData`: the fingerprint of a string. */
  function Fingerprint(data: string): string {
    "eva_" + Hex(Abs(RollingHash(Utf16(data))))
  }

  /**
   * A fingerprint is "eva_" followed by one to eight lowercase hex digits without a
   * leading zero, and those digits denote |h| for the final value h of the Java recurrence.
   */
  lemma FingerprintShape(data: string)
    ensures var f := Fingerprint(data);
      && f[..4] == "eva_"
      && 5 <= |f| <= 12
      && (forall k :: 4 <= k < |f| ==> f[k] in HexDigits)
      && (f[4] == '0' <==> |f| == 5 && RollingHash(Utf16(data)) == 0)
      && HexValue(f[4..]) == Abs(RollingHash(Utf16(data)))
  {
    var n := Abs(RollingHash(Utf16(data)));
    var f := Fingerprint(data);
    assert f[4..] == Hex(n);
    assert Pow16(8) == TwoTo32;
    HexLength(n, 8);
    HexRoundTrip(n);
    HexAlphabet(n);
    HexNoLeadingZero(n);
    if f[4] == '0' {
      assert n == 0;
    }
  }

  /** Multiplying a positive number by 16 appends one `0` digit. */
  lemma HexTimesSixteen(n: nat)
    requires n >= 1
    ensures Hex(16 * n) == Hex(n) + "0"
  {
    assert (16 * n) / 16 == n && (16 * n) % 16 == 0;
  }

  /** The absolute value of -2^31 is rendered in full: "eva_80000000". */
  lemma FingerprintOfMinInt32()
    ensures "eva_" + Hex(Abs(-TwoTo31)) == "eva_80000000"
  {
    assert Hex(8) == "8";
    HexTimesSixteen(8);
    HexTimesSixteen(0x80);
    HexTimesSixteen(0x800);
    HexTimesSixteen(0x8000);
    HexTimesSixteen(0x8_0000);
    HexTimesSixteen(0x80_0000);
    HexTimesSixteen(0x800_0000);
    assert Hex(0x8000_0000) == "80000000";
  }

  /** The empty string hashes to "eva_0". */
  lemma FingerprintOfEmpty()
    ensures Fingerprint("") == "eva_0"
  {
    assert Utf16("") == [];
  }

  /** The loop of `hashData`, one code unit at a time, with the source's shift-and-subtract step. */
  method HashData(data: string) returns (fingerprint: string)
    ensures fingerprint == Fingerprint(data)
  {
    var units := Utf16(data);
    var hash := 0;
    for i := 0 to |units|
      invariant hash == RollingHash(units[..i])
    {
      var code := units[i];
      StepIsJavaRecurrence(hash, code);
      assert units[..i + 1][..i] == units[..i];
      hash := ShiftLeft5(hash) - hash + code;
      hash := ToInt32(hash);
    }
    assert units[..|units|] == units;
    fingerprint := "eva_" + Hex(Abs(hash));
  }
}

=== FILE: leak.dfy ===
/**
 * The leak dispatcher of leak.js: a seed is built from the payload, fanned out to every
 * registered destination with each failure caught on its own, and then recorded once in
 * the leak history, whatever the destinations did.
 */
module LeakEngine {
  import opened JsValues
  import opened Fingerprints

  /** A sink descriptor: `{ name, type }`. The kind is a free string, matched by value. */
  datatype Destination = Destination(name: string, kind: string)

  /** The fixed catalogue `autoDiscover` installs, in this order. */
  const Catalogue: seq<Destination> := [
    Destination("localStorage", "web-storage"),
    Destination("sessionStorage", "web-storage"),
    Destination("indexedDB", "indexed-db"),
    Destination("service-worker-cache", "cache"),
    Destination("broadcast-channel", "p2p")
  ]

  /** The sink writers of the dispatcher; their bodies are browser storage calls. */
  datatype Sink = LocalStorage | SessionStorage | IndexedDb | CacheStorage | Broadcast

  /** The writer a destination is routed to; `None` for a kind no branch recognises. */
  function SinkFor(d: Destination): (s: Option<Sink>)
    ensures s.None? <==> d.kind !in {"web-storage", "indexed-db", "cache", "p2p"}
    ensures s == Some(LocalStorage) <==> d.kind == "web-storage" && d.name == "localStorage"
  {
    if d.kind == "web-storage" then
      Some(if d.name == "localStorage" then LocalStorage else SessionStorage)
    else if d.kind == "indexed-db" then Some(IndexedDb)
    else if d.kind == "cache" then Some(CacheStorage)
    else if d.kind == "p2p" then Some(Broadcast)
    else None
  }

  /** The record `createSeed` builds, with the fields in the order they are serialised. */
  datatype LeakSeed = LeakSeed(
    data: string,
    hash: string,
    timestamp: int,
    bpm: real,
    version: string,
    license: string,
    parents: seq<string>,
    id: string)

  /** The seed as the JSON object `JSON.stringify` is given. */
  function SeedJson(seed: LeakSeed): Value {
    Obj([
      ("data", Str(seed.data)),
      ("hash", Str(seed.hash)),
      ("timestamp", Num(seed.timestamp as real)),
      ("bpm", Num(seed.bpm)),
      ("version", Str(seed.version)),
      ("license", Str(seed.license)),
      ("parents", Arr(seq(|seed.parents|, k requires 0 <= k < |seed.parents| => Str(seed.parents[k])))),
      ("id", Str(seed.id))
    ])
  }

  /** One entry of the leak history: `{ timestamp, seed, size }`. */
  datatype LeakRecord = LeakRecord(timestamp: int, seed: string, size: nat)

  /** What happened at one destination during a drip. */
  datatype Delivery =
    | Written(dest: Destination, sink: Sink)
    | Failed(dest: Destination, sink: Sink)
    | Ignored(dest: Destination)

  /**
   * The outcome of one destination: its writer is called and a throw is caught.
   * `write` says whether the writer returned normally (true) or threw (false).
   */
  function Attempt(d: Destination, seed: LeakSeed, write: (Sink, Destination, LeakSeed) -> bool): (r: Delivery)
    ensures r.dest == d
    ensures r.Ignored? <==> SinkFor(d).None?
    ensures !r.Ignored? ==> Some(r.sink) == SinkFor(d) && (r.Written? <==> write(r.sink, d, seed))
  {
    match SinkFor(d)
    case None => Ignored(d)
    case Some(s) => if write(s, d, seed) then Written(d, s) else Failed(d, s)
  }

  /**
   * The `forEach` of `drip`: every target is attempted, in order, and the outcome at a
   * destination depends on that destination alone, so a failure never stops the rest.
   */
  method Deliver(seed: LeakSeed, targets: seq<Destination>, write: (Sink, Destination, LeakSeed) -> bool)
    returns (log: seq<Delivery>)
    ensures |log| == |targets|
    ensures forall k :: 0 <= k < |targets| ==> log[k].dest == targets[k] && log[k] == Attempt(targets[k], seed, write)
  {
    log := [];
    for i := 0 to |targets|
      invariant |log| == i
      invariant forall k :: 0 <= k < i ==> log[k].dest == targets[k] && log[k] == Attempt(targets[k], seed, write)
    {
      var d := targets[i];
      var outcome: Delivery;
      match SinkFor(d) {
        case None =>
          outcome := Ignored(d);
        case Some(s) =>
          var ok := write(s, d, seed);
          outcome := if ok then Written(d, s) else Failed(d, s);
      }
      log := log + [outcome];
    }
  }

  /** The sum of the sizes of the history entries. */
  function TotalSize(history: seq<LeakRecord>): nat {
    if history == [] then 0 else TotalSize(history[..|history| - 1]) + history[|history| - 1].size
  }

  /** Appending an entry adds exactly its size to the total. */
  lemma TotalSizeAppend(history: seq<LeakRecord>, r: LeakRecord)
    ensures TotalSize(history + [r]) == TotalSize(history) + r.size
  {
    assert (history + [r])[..|history|] == history;
  }

  /** The hashes of a run of history entries, in order (`.map(h => h.seed)`). */
  function Hashes(history: seq<LeakRecord>): (hs: seq<string>)
    ensures |hs| == |history|
    ensures forall k :: 0 <= k < |history| ==> hs[k] == history[k].seed
  {
    seq(|history|, k requires 0 <= k < |history| => history[k].seed)
  }

  /** The browser facilities one drip reads: two clock reads, the rhythm, the id and the sink writers. */
  datatype Host = Host(
    seedTime: int,
    recordTime: int,
    rhythmBpm: Option<real>,
    id: string,
    write: (Sink, Destination, LeakSeed) -> bool)

  /** `getStats()`. */
  datatype LeakStats = LeakStats(
    active: bool,
    leakCount: int,
    bytesTransferred: int,
    destinationsCount: nat,
    destinations: seq<Destination>,
    recentLeaks: seq<LeakRecord>)

  class Leak {
    var rate: Value
    var destinations: seq<Destination>
    var leakCount: int
    var bytesTransferred: int
    var active: bool
    var leakHistory: seq<LeakRecord>
    /** `JSON.stringify`, left uninterpreted. */
    const stringify: Value -> string

    /** The bookkeeping invariant: one history entry per drip, and the bytes are the sum of their sizes. */
    ghost predicate Valid()
      reads this
    {
      leakCount == |leakHistory| && bytesTransferred == TotalSize(leakHistory)
    }

    constructor (stringify: Value -> string)
      ensures Valid()
      ensures this.stringify == stringify
      ensures rate == Num(0.1) && destinations == [] && !active
      ensures leakCount == 0 && bytesTransferred == 0 && leakHistory == []
    {
      this.stringify := stringify;
      rate := Num(0.1);
      destinations := [];
      leakCount := 0;
      bytesTransferred := 0;
      active := false;
      leakHistory := [];
    }

    /** The string a payload is hashed as: a string as it is, anything else serialised. */
    function Canonical(data: Value): (text: string)
      ensures data.Str? ==> text == data.s
      ensures !data.Str? ==> text == stringify(data)
    {
      if data.Str? then data.s else stringify(data)
    }

    /** `JSON.stringify(seed).length`. */
    function SeedSize(seed: LeakSeed): nat {
      |Utf16(stringify(SeedJson(seed)))|
    }

    /** `autoDiscover`: installs the fixed catalogue and returns it. */
    method AutoDiscover() returns (found: seq<Destination>)
      modifies this`destinations
      ensures destinations == Catalogue && found == Catalogue
    {
      destinations := Catalogue;
      found := destinations;
    }

    /** `getParentHashes`: the hashes of the last (at most) three history entries, oldest first. */
    function ParentHashes(): (parents: seq<string>)
      reads this
      ensures |parents| == Min(3, |leakHistory|)
      ensures forall k :: 0 <= k < |parents| ==>
        parents[k] == leakHistory[|leakHistory| - |parents| + k].seed
    {
      Hashes(Last(leakHistory, 3))
    }

    /** `createSeed`: a seed whose hash is the fingerprint of its own data and whose parents are the recent hashes. */
    method CreateSeed(data: Value, now: int, rhythmBpm: Option<real>, id: string) returns (seed: LeakSeed)
      ensures seed.data == Canonical(data)
      ensures seed.hash == Fingerprint(seed.data)
      ensures seed.parents == ParentHashes()
      ensures seed.timestamp == now && seed.bpm == BpmStamp(rhythmBpm) && seed.id == id
      ensures seed.version == "1.0" && seed.license == "4F"
    {
      var text := Canonical(data);
      var hash := HashData(text);
      seed := LeakSeed(text, hash, now, BpmStamp(rhythmBpm), "1.0", "4F", ParentHashes(), id);
    }

    /**
     * `drip`: a no-op returning null when inactive. Otherwise the seed goes to the given
     * destination, or to every registered one, and then the count, the bytes and the
     * history are updated exactly once, however many destinations failed.
     */
    method Drip(data: Value, destination: Option<Destination>, host: Host)
      returns (receipt: Option<string>, log: seq<Delivery>, ghost seed: LeakSeed)
      requires Valid()
      modifies this`leakCount, this`bytesTransferred, this`leakHistory
      ensures Valid()
      ensures !old(active) ==> receipt == None && log == [] && unchanged(this)
      ensures old(active) ==>
        && seed.data == Canonical(data)
        && seed.hash == Fingerprint(seed.data)
        && seed.parents == old(ParentHashes())
        && seed.timestamp == host.seedTime && seed.bpm == BpmStamp(host.rhythmBpm) && seed.id == host.id
        && seed.version == "1.0" && seed.license == "4F"
        && receipt == Some(seed.hash)
        && leakCount == old(leakCount) + 1
        && bytesTransferred == old(bytesTransferred) + SeedSize(seed)
        && leakHistory == old(leakHistory) + [LeakRecord(host.recordTime, seed.hash, SeedSize(seed))]
    ensures old(active) ==>
        var targets := if destination.Some? then [destination.value] else destinations;
        && |log| == |targets|
        && forall k :: 0 <= k < |targets| ==> log[k] == Attempt(targets[k], seed, host.write)
    {
      if !active {
        receipt, log, seed := None, [], LeakSeed("", "", 0, 0.0, "", "", [], "");
        return;
      }
      var made := CreateSeed(data, host.seedTime, host.rhythmBpm, host.id);
      var targets := if destination.Some? then [destination.value] else destinations;
      log := Deliver(made, targets, host.write);

      Record(made, host.recordTime);
      receipt, seed := Some(made.hash), made;
    }

    /** The bookkeeping after the fan-out: one more leak, its bytes, and one history entry. */
    method Record(seed: LeakSeed, now: int)
      requires Valid()
      modifies this`leakCount, this`bytesTransferred, this`leakHistory
      ensures Valid()
      ensures leakCount == old(leakCount) + 1
      ensures bytesTransferred == old(bytesTransferred) + SeedSize(seed)
      ensures leakHistory == old(leakHistory) + [LeakRecord(now, seed.hash, SeedSize(seed))]
    {
      var size := SeedSize(seed);
      var entry := LeakRecord(now, seed.hash, size);
      TotalSizeAppend(leakHistory, entry);
      leakCount := leakCount + 1;
      bytesTransferred := bytesTransferred + size;
      leakHistory := leakHistory + [entry];
    }

    /** `start(rate = 0.1)`: activates, records the rate and rediscovers the catalogue. */
    method Start(rate: Option<Value>)
      modifies this`active, this`rate, this`destinations
      ensures active && this.rate == OrDefault(rate, Num(0.1)) && destinations == Catalogue
    {
      active := true;
      this.rate := OrDefault(rate, Num(0.1));
      var _ := AutoDiscover();
    }

    /** `stop`: deactivates and touches nothing else. */
    method Stop()
      modifies this`active
      ensures !active
    {
      active := false;
    }

    /** `getStats()`: the counters, the destinations and the last (at most) ten history entries. */
    function Stats(): (st: LeakStats)
      reads this
      ensures st.active == active && st.leakCount == leakCount && st.bytesTransferred == bytesTransferred
      ensures st.destinationsCount == |destinations| && st.destinations == destinations
      ensures |st.recentLeaks| == Min(10, |leakHistory|)
      ensures forall k :: 0 <= k < |st.recentLeaks| ==>
        st.recentLeaks[k] == leakHistory[|leakHistory| - |st.recentLeaks| + k]
    {
      LeakStats(active, leakCount, bytesTransferred, |destinations|, destinations, Last(leakHistory, 10))
    }
  }

  /**
   * A seed's lineage can hold its own hash: whatever the history before, once a drip of
   * `text` has been recorded, the next seed's parents include the fingerprint of `text`,
   * which is also that next seed's own hash when it leaks `text` again.
   */
  lemma LineageMayRepeatOwnHash(history: seq<LeakRecord>, now: int, text: string, size: nat)
    ensures Fingerprint(text) in Hashes(Last(history + [LeakRecord(now, Fingerprint(text), size)], 3))
  {
    var h := history + [LeakRecord(now, Fingerprint(text), size)];
    var recent := Last(h, 3);
    assert recent[|recent| - 1] == h[|h| - 1];
    assert Hashes(recent)[|recent| - 1] == Fingerprint(text);
  }

  /**
   * Two drips, with any clocks, ids, rhythm and sink outcomes and over any history, of
   * payloads with the same canonical text: the receipts are equal, being the fingerprint
   * of that text alone, and the second seed carries its own hash among its parents.
   */
  method DripTwice(l: Leak, a: Value, b: Value, first: Host, second: Host)
    returns (r1: Option<string>, r2: Option<string>, ghost seed2: LeakSeed)
    requires l.Valid() && l.active
    requires l.Canonical(a) == l.Canonical(b)
    modifies l`leakCount, l`bytesTransferred, l`leakHistory
    ensures l.Valid()
    ensures r1 == r2 == Some(Fingerprint(l.Canonical(a)))
    ensures r2 == Some(seed2.hash) && seed2.hash in seed2.parents
  {
    var log1, log2;
    ghost var seed1;
    ghost var before := l.leakHistory;
    r1, log1, seed1 := l.Drip(a, None, first);
    LineageMayRepeatOwnHash(before, first.recordTime, l.Canonical(a), l.SeedSize(seed1));
    r2, log2, seed2 := l.Drip(b, None, second);
  }
}

=== FILE: rhythm.dfy ===
/**
 * The rhythm of rhythm.js: a beats-per-minute value set from the time of day, the
 * network type and a weather stand-in, and a cycle phase that advances one degree per
 * animation frame and beats every quarter turn.
 */
module RhythmEngine {
  import opened JsValues

  /** `Math.max(40, Math.min(200, bpm))`. */
  function ClampBpm(bpm: real): (r: real)
    ensures 40.0 <= r <= 200.0
    ensures 40.0 <= bpm <= 200.0 ==> r == bpm
    ensures bpm < 40.0 ==> r == 40.0
    ensures bpm > 200.0 ==> r == 200.0
  {
    var capped := if bpm <= 200.0 then bpm else 200.0;
    if capped >= 40.0 then capped else 40.0
  }

  /** Clamping twice is clamping once. */
  lemma ClampIdempotent(bpm: real)
    ensures ClampBpm(ClampBpm(bpm)) == ClampBpm(bpm)
  {
  }

  /** `syncTimeOfDay`: 90 BPM for hours 6 to 17, 60 BPM otherwise. */
  function TimeOfDayBpm(hour: int): (bpm: real)
    ensures bpm == 90.0 <==> 6 <= hour < 18
    ensures bpm == 60.0 <==> !(6 <= hour < 18)
  {
    if 6 <= hour < 18 then 90.0 else 60.0
  }

  /** `syncNetworkSpeed`'s table, with 120 for any other effective type. */
  function NetworkBpm(effectiveType: string): (bpm: real)
    ensures 40.0 <= bpm <= 140.0
  {
    if effectiveType == "4g" then 140.0
    else if effectiveType == "3g" then 100.0
    else if effectiveType == "2g" then 60.0
    else if effectiveType == "slow-2g" then 40.0
    else 120.0
  }

  /** The network table gives 120 exactly for the types it does not list. */
  lemma NetworkBpmTable(t: string)
    ensures NetworkBpm(t) in {140.0, 100.0, 60.0, 40.0, 120.0}
    ensures NetworkBpm(t) == 120.0 <==> t !in {"4g", "3g", "2g", "slow-2g"}
  {
  }

  /** `syncWeather`'s night test. */
  predicate WeatherNight(hour: int) {
    hour < 6 || hour > 18
  }

  /** `syncWeather`: 10% slower at night, 10% faster by day. */
  function WeatherBpm(bpm: real, hour: int): (r: real)
    ensures bpm > 0.0 && WeatherNight(hour) ==> r < bpm
    ensures bpm > 0.0 && !WeatherNight(hour) ==> r > bpm
  {
    if WeatherNight(hour) then bpm * 0.9 else bpm * 1.1
  }

  /** Hour 18 is night for the time-of-day table but day for the weather test. */
  lemma HourEighteenDisagrees()
    ensures TimeOfDayBpm(18) == 60.0 && !WeatherNight(18)
    ensures forall h :: h != 18 ==> (TimeOfDayBpm(h) == 60.0 <==> WeatherNight(h))
  {
  }

  /**
   * The BPM after `syncWith` with the merged factors: the time of day first, then the
   * network (when the connection API exists), then the weather.
   */
  function SyncedBpm(bpm: real, factors: map<string, Value>, hour: int, connection: Option<string>): real {
    var afterTime := if Truthy(Get(factors, "timeOfDay")) then TimeOfDayBpm(hour) else bpm;
    var afterNetwork :=
      if Truthy(Get(factors, "networkSpeed")) && connection.Some? then NetworkBpm(connection.value)
      else afterTime;
    if Truthy(Get(factors, "weather")) then WeatherBpm(afterNetwork, hour) else afterNetwork
  }

  /**
   * With time of day and network both enabled and weather off, the network setting wins
   * whatever the hour and the previous BPM; without a connection API the time of day stays.
   */
  lemma NetworkOverridesTimeOfDay(bpm: real, factors: map<string, Value>, hour: int, connection: Option<string>)
    requires Truthy(Get(factors, "timeOfDay")) && Truthy(Get(factors, "networkSpeed"))
    requires !Truthy(Get(factors, "weather"))
    ensures connection.Some? ==> SyncedBpm(bpm, factors, hour, connection) == NetworkBpm(connection.value)
    ensures connection.None? ==> SyncedBpm(bpm, factors, hour, connection) == TimeOfDayBpm(hour)
  {
  }

  /** With no factor enabled, syncing leaves the BPM as it was. */
  lemma SyncWithNothingEnabled(bpm: real, factors: map<string, Value>, hour: int, connection: Option<string>)
    requires !Truthy(Get(factors, "timeOfDay")) && !Truthy(Get(factors, "networkSpeed"))
    requires !Truthy(Get(factors, "weather"))
    ensures SyncedBpm(bpm, factors, hour, connection) == bpm
  {
  }

  /** The merge `{ ...old, ...given }`: a given factor wins, any other keeps its old value. */
  lemma MergeGivenWins(old_: map<string, Value>, given: map<string, Value>, key: string)
    ensures key in given ==> Get(old_ + given, key) == Get(given, key)
    ensures key !in given ==> Get(old_ + given, key) == Get(old_, key)
  {
  }

  /** One animation step of the phase: `(cyclePhase + 1) % 360`. */
  function NextPhase(phase: int): (next: int)
    ensures 0 <= next < 360
  {
    (phase + 1) % 360
  }

  /** A beat fires on a phase that is a multiple of 90 degrees. */
  predicate IsBeat(phase: int) {
    phase % 90 == 0
  }

  /** The number of beats fired by `n` running animation steps that start at `phase`. */
  function BeatsFrom(phase: int, n: nat): nat
    decreases n
  {
    if n == 0 then 0
    else (if IsBeat(NextPhase(phase)) then 1 else 0) + BeatsFrom(NextPhase(phase), n - 1)
  }

  /** Adding whole turns of 90 degrees does not change the remainder modulo 90. */
  lemma ModNinetyShift(k: nat, m: nat)
    ensures (90 * k + m) % 90 == m % 90
  {
    var x := 90 * k + m;
    assert x == 90 * (k + m / 90) + m % 90;
  }

  /** Stepping the phase of step counter q gives the phase of q + 1, and it beats exactly on multiples of 90. */
  lemma PhaseStep(q: nat)
    ensures NextPhase(q % 360) == (q + 1) % 360
    ensures IsBeat((q + 1) % 360) <==> (q + 1) % 90 == 0
  {
    var a := q / 360;
    var r := q % 360;
    assert q == 360 * a + r;
    if r < 359 {
      assert q + 1 == 360 * a + (r + 1);
      assert (q + 1) % 360 == r + 1;
    } else {
      assert q + 1 == 360 * (a + 1);
      assert (q + 1) % 360 == 0;
    }
    var b := (q + 1) / 360;
    var m := (q + 1) % 360;
    assert q + 1 == 90 * (4 * b) + m;
    ModNinetyShift(4 * b, m);
  }

  /** One more step passes one more multiple of 90 exactly when it lands on one. */
  lemma BeatCountStep(q: nat)
    ensures (q + 1) / 90 - q / 90 == if (q + 1) % 90 == 0 then 1 else 0
  {
  }

  /** Counting with an unbounded step counter q: the beats are the multiples of 90 in (q, q + n]. */
  lemma {:induction false} BeatsClosedForm(q: nat, n: nat)
    ensures BeatsFrom(q % 360, n) == (q + n) / 90 - q / 90
    decreases n
  {
    if n > 0 {
      PhaseStep(q);
      BeatCountStep(q);
      BeatsClosedForm(q + 1, n - 1);
    }
  }

  /** Every full turn of 360 running steps fires exactly four beats, from any phase. */
  lemma FourBeatsPerTurn(phase: int)
    requires 0 <= phase < 360
    ensures BeatsFrom(phase, 360) == 4
  {
    assert phase % 360 == phase;
    assert (phase + 360) / 90 == phase / 90 + 4;
    BeatsClosedForm(phase, 360);
  }

  /** The default sync factors: all four disabled. */
  const DefaultFactors: map<string, Value> := map[
    "weather" := Bool(false),
    "timeOfDay" := Bool(false),
    "networkSpeed" := Bool(false),
    "heartRate" := Bool(false)]

  class Rhythm {
    var currentBPM: real
    var baseBPM: real
    var syncFactors: map<string, Value>
    var cyclePhase: int
    var isRunning: bool

    /** The phase is always an angle in [0, 360). */
    ghost predicate Valid()
      reads this
    {
      0 <= cyclePhase < 360
    }

    constructor ()
      ensures Valid()
      ensures currentBPM == 120.0 && baseBPM == 120.0 && syncFactors == DefaultFactors
      ensures cyclePhase == 0 && !isRunning
    {
      currentBPM := 120.0;
      baseBPM := 120.0;
      syncFactors := DefaultFactors;
      cyclePhase := 0;
      isRunning := false;
    }

    /** `syncTimeOfDay`, with the hour of `new Date().getHours()` as input. */
    method SyncTimeOfDay(hour: int)
      modifies this`currentBPM
      ensures currentBPM == TimeOfDayBpm(hour)
    {
      if hour >= 6 && hour < 18 {
        currentBPM := 90.0;
      } else {
        currentBPM := 60.0;
      }
    }

    /** `syncNetworkSpeed`: `connection` is `navigator.connection.effectiveType`, None without the API. */
    method SyncNetworkSpeed(connection: Option<string>)
      modifies this`currentBPM
      ensures connection.None? ==> currentBPM == old(currentBPM)
      ensures connection.Some? ==> currentBPM == NetworkBpm(connection.value)
    {
      if connection.Some? {
        currentBPM := NetworkBpm(connection.value);
      }
    }

    /** `syncWeather`, on exact reals. */
    method SyncWeather(hour: int)
      modifies this`currentBPM
      ensures currentBPM == WeatherBpm(old(currentBPM), hour)
    {
      var isNight := hour < 6 || hour > 18;
      if isNight {
        currentBPM := currentBPM * 0.9;
      } else {
        currentBPM := currentBPM * 1.1;
      }
    }

    /** `syncWith`: merges the given factors over the current ones, then applies them in order. */
    method SyncWith(factors: map<string, Value>, hour: int, connection: Option<string>)
      modifies this`syncFactors, this`currentBPM
      ensures syncFactors == old(syncFactors) + factors
      ensures currentBPM == SyncedBpm(old(currentBPM), syncFactors, hour, connection)
    {
      syncFactors := syncFactors + factors;
      if Truthy(Get(syncFactors, "timeOfDay")) {
        SyncTimeOfDay(hour);
      }
      if Truthy(Get(syncFactors, "networkSpeed")) {
        SyncNetworkSpeed(connection);
      }
      if Truthy(Get(syncFactors, "weather")) {
        SyncWeather(hour);
      }
    }

    /** `animate`: one frame. Nothing happens when stopped; otherwise the phase advances and `beat` says whether `onBeat` fired. */
    method Animate() returns (beat: bool)
      requires Valid()
      modifies this`cyclePhase
      ensures Valid()
      ensures !isRunning ==> cyclePhase == old(cyclePhase) && !beat
      ensures isRunning ==> cyclePhase == NextPhase(old(cyclePhase)) && beat == IsBeat(cyclePhase)
    {
      if !isRunning {
        return false;
      }
      cyclePhase := (cyclePhase + 1) % 360;
      beat := cyclePhase % 90 == 0;
    }

    /** `start`: sets the running flag and runs the first frame; the phase is not reset. */
    method Start() returns (beat: bool)
      requires Valid()
      modifies this`isRunning, this`cyclePhase
      ensures Valid() && isRunning
      ensures cyclePhase == NextPhase(old(cyclePhase)) && beat == IsBeat(cyclePhase)
    {
      isRunning := true;
      beat := Animate();
    }

    /** `stop`: clears the running flag only. */
    method Stop()
      modifies this`isRunning
      ensures !isRunning
    {
      isRunning := false;
    }

    /** `setBPM`: the BPM becomes the requested value clamped to [40, 200]. */
    method SetBpm(bpm: real)
      modifies this`currentBPM
      ensures currentBPM == ClampBpm(bpm)
    {
      var capped := if bpm <= 200.0 then bpm else 200.0;
      currentBPM := if capped >= 40.0 then capped else 40.0;
    }
  }
}

=== FILE: seeds.dfy ===
/**
 * The seed library of seeds.js: seeds are generated with a DNA projection of their
 * payload, mutated with some probability, planted as copies and kept in a library.
 */
module SeedEngine {
  import opened JsValues

  /** One DNA symbol: `String.fromCharCode(65 + (code % 26))`. */
  function Symbol(code: int): (c: char)
    ensures 'A' <= c <= 'Z'
  {
    (65 + code % 26) as char
  }

  /** The projection `generateDNA` computes from the serialised payload, cut to 32 symbols. */
  function Dna(text: string): string {
    var units := Utf16(text);
    var n := Min(32, |units|);
    seq(n, k requires 0 <= k < n => Symbol(units[k]))
  }

  /**
   * The DNA has min(32, length) symbols, symbol k encodes code unit k, and every
   * symbol lies in 'A'..'Z'.
   */
  lemma DnaShape(text: string)
    ensures |Dna(text)| == Min(32, |Utf16(text)|) && |Dna(text)| <= 32
    ensures forall k :: 0 <= k < |Dna(text)| ==> Dna(text)[k] == Symbol(Utf16(text)[k])
    ensures forall k :: 0 <= k < |Dna(text)| ==> 'A' <= Dna(text)[k] <= 'Z'
  {
  }

  /** Only the first 32 code units of the payload reach the DNA. */
  lemma DnaSeesOnlyPrefix(a: string, b: string)
    requires |Utf16(a)| >= 32 && |Utf16(b)| >= 32
    requires Utf16(a)[..32] == Utf16(b)[..32]
    ensures Dna(a) == Dna(b)
  {
    assert forall k :: 0 <= k < 32 ==> Utf16(a)[k] == Utf16(a)[..32][k];
    assert forall k :: 0 <= k < 32 ==> Utf16(b)[k] == Utf16(b)[..32][k];
  }

  /** The random numbers one mutation consumes, in the order the source draws them. */
  datatype Draws = Draws(
    chance: real,    // the `Math.random() < mutationRate` test
    keyPick: real,   // which key: `keys[Math.floor(Math.random() * keys.length)]`
    jitter: real,    // the numeric perturbation
    suffix: string)  // `Math.random().toString(36).substr(2, 5)`

  /** `Math.random()` lies in [0, 1). */
  predicate UnitDraws(d: Draws) {
    0.0 <= d.keyPick < 1.0 && 0.0 <= d.jitter < 1.0
  }

  /** `Math.floor(r * n)` for a draw r in [0, 1) is an index below n. */
  function PickIndex(r: real, n: nat): (i: nat)
    requires 0.0 <= r < 1.0 && n > 0
    ensures i < n
  {
    ScaledBelow(r, n);
    (r * n as real).Floor
  }

  /** A draw in [0, 1) scaled by a positive count stays below that count. */
  lemma {:induction false} ScaledBelow(r: real, n: nat)
    requires 0.0 <= r < 1.0 && n > 0
    ensures 0.0 <= r * (n as real) < n as real
    decreases n
  {
    if n > 1 {
      ScaledBelow(r, n - 1);
      assert r * (n as real) == r * ((n - 1) as real) + r;
    }
  }

  /** `mutateValue`: numbers are perturbed, strings suffixed, booleans flipped, anything else kept. */
  function MutateValue(v: Value, jitter: real, suffix: string): Value {
    match v
    case Num(x) => Num(x + (jitter - 0.5) * x * 0.2)
    case Str(s) => Str(s + "_mutated_" + suffix)
    case Bool(b) => Bool(!b)
    case _ => v
  }

  /** Mutating a boolean twice gives it back. */
  lemma MutateBoolTwice(b: bool, j1: real, j2: real, s1: string, s2: string)
    ensures MutateValue(MutateValue(Bool(b), j1, s1), j2, s2) == Bool(b)
    ensures MutateValue(Bool(b), j1, s1) != Bool(b)
  {
  }

  /** A mutated string keeps the original as a prefix, followed by "_mutated_" and the suffix. */
  lemma MutateStringExtends(s: string, j: real, suffix: string)
    ensures MutateValue(Str(s), j, suffix).Str?
    ensures var r := MutateValue(Str(s), j, suffix).s;
      |r| == |s| + 9 + |suffix| && r[..|s|] == s && r[|s|..|s| + 9] == "_mutated_" && r[|s| + 9..] == suffix
  {
  }

  /** A mutated number moves by at most a tenth of its magnitude. */
  lemma MutateNumberBounded(x: real, j: real, suffix: string)
    requires 0.0 <= j < 1.0
    ensures MutateValue(Num(x), j, suffix).Num?
    ensures var d := MutateValue(Num(x), j, suffix).x - x;
      -0.1 * RealAbs(x) <= d <= 0.1 * RealAbs(x)
  {
    var d := (j - 0.5) * x * 0.2;
    assert MutateValue(Num(x), j, suffix).x - x == d;
    if x >= 0.0 {
      assert -0.5 * x <= (j - 0.5) * x <= 0.5 * x;
    } else {
      assert 0.5 * x <= (j - 0.5) * x <= -0.5 * x;
    }
  }

  function RealAbs(x: real): real {
    if x < 0.0 then -x else x
  }

  /** Values that are not numbers, strings or booleans come back unchanged. */
  lemma MutateOtherUnchanged(v: Value, j: real, suffix: string)
    requires !v.Num? && !v.Str? && !v.Bool?
    ensures MutateValue(v, j, suffix) == v
  {
  }

  /**
   * The payload after a successful draw: for an object or array with at least one key,
   * the value at the drawn key is mutated; any other payload is kept.
   */
  function MutateData(data: Value, d: Draws): Value
    requires UnitDraws(d)
  {
    match data
    case Obj(fields) =>
      if |fields| == 0 then data
      else
        var i := PickIndex(d.keyPick, |fields|);
        Obj(fields[i := (fields[i].0, MutateValue(fields[i].1, d.jitter, d.suffix))])
    case Arr(items) =>
      if |items| == 0 then data
      else
        var i := PickIndex(d.keyPick, |items|);
        Arr(items[i := MutateValue(items[i], d.jitter, d.suffix)])
    case _ => data
  }

  /**
   * On an object payload a successful draw changes at most one key: the keys and their
   * order stay, the drawn key holds its mutated value and every other key keeps its value.
   */
  lemma MutateObjectAtMostOneKey(fields: seq<(string, Value)>, d: Draws)
    requires UnitDraws(d) && |fields| > 0
    ensures MutateData(Obj(fields), d).Obj?
    ensures |MutateData(Obj(fields), d).fields| == |fields|
    ensures forall k :: 0 <= k < |fields| ==> MutateData(Obj(fields), d).fields[k].0 == fields[k].0
    ensures var i := PickIndex(d.keyPick, |fields|);
      && MutateData(Obj(fields), d).fields[i].1 == MutateValue(fields[i].1, d.jitter, d.suffix)
      && forall k :: 0 <= k < |fields| && k != i ==> MutateData(Obj(fields), d).fields[k] == fields[k]
  {
    var i := PickIndex(d.keyPick, |fields|);
    assert MutateData(Obj(fields), d).fields[i].1 == MutateValue(fields[i].1, d.jitter, d.suffix);
  }

  /** On an array payload a successful draw changes at most one element, the drawn one. */
  lemma MutateArrayAtMostOneItem(items: seq<Value>, d: Draws)
    requires UnitDraws(d) && |items| > 0
    ensures MutateData(Arr(items), d).Arr?
    ensures |MutateData(Arr(items), d).items| == |items|
    ensures var i := PickIndex(d.keyPick, |items|);
      && MutateData(Arr(items), d).items[i] == MutateValue(items[i], d.jitter, d.suffix)
      && forall k :: 0 <= k < |items| && k != i ==> MutateData(Arr(items), d).items[k] == items[k]
  {
    var i := PickIndex(d.keyPick, |items|);
    assert MutateData(Arr(items), d).items[i] == MutateValue(items[i], d.jitter, d.suffix);
  }

  /** An empty object or array, and a payload that is not an object, keep their value. */
  lemma MutateDataKeepsKeyless(data: Value, d: Draws)
    requires UnitDraws(d)
    requires !(data.Obj? && |data.fields| > 0) && !(data.Arr? && |data.items| > 0)
    ensures MutateData(data, d) == data
  {
  }

  /** A seed record; `mutateSeed` updates its fields in place. */
  class Seed {
    var id: string
    var kind: string
    var data: Value
    var timestamp: int
    var bpm: real
    var generation: int
    var mutations: int
    var dna: string

    constructor (id: string, kind: string, data: Value, timestamp: int, bpm: real, dna: string)
      ensures this.id == id && this.kind == kind && this.data == data
      ensures this.timestamp == timestamp && this.bpm == bpm && this.dna == dna
      ensures generation == 1 && mutations == 0
    {
      this.id := id;
      this.kind := kind;
      this.data := data;
      this.timestamp := timestamp;
      this.bpm := bpm;
      generation := 1;
      mutations := 0;
      this.dna := dna;
    }

    /** `JSON.parse(JSON.stringify(seed))`: a field-by-field deep copy. */
    constructor Copy(other: Seed)
      ensures id == other.id && kind == other.kind && data == other.data
      ensures timestamp == other.timestamp && bpm == other.bpm && dna == other.dna
      ensures generation == other.generation && mutations == other.mutations
    {
      id := other.id;
      kind := other.kind;
      data := other.data;
      timestamp := other.timestamp;
      bpm := other.bpm;
      generation := other.generation;
      mutations := other.mutations;
      dna := other.dna;
    }
  }

  /** The options of `generate`; an absent entry takes the source's default. */
  datatype GenerateOptions = GenerateOptions(
    kind: Option<string>,
    data: Option<Value>,
    mutate: bool,
    mutationRate: Option<real>)

  /** The browser facilities one `generate` reads. */
  datatype SeedHost = SeedHost(id: string, now: int, rhythmBpm: Option<real>, draws: Draws)

  /** `getStats()`. */
  datatype SeedStats = SeedStats(
    generated: int,
    planted: int,
    growing: int,
    librarySize: nat,
    mutationRate: real,
    recentSeeds: seq<Seed>)

  class Seeds {
    var generated: int
    var planted: int
    var growing: int
    var seedLibrary: seq<Seed>
    var mutationRate: real
    /** `JSON.stringify`, left uninterpreted. */
    const stringify: Value -> string

    /** Every seed in the library was counted as generated (by `generate` or `import`). */
    ghost predicate Valid()
      reads this
    {
      generated == |seedLibrary|
    }

    constructor (stringify: Value -> string)
      ensures Valid()
      ensures this.stringify == stringify
      ensures generated == 0 && planted == 0 && growing == 0 && seedLibrary == [] && mutationRate == 0.1
    {
      this.stringify := stringify;
      generated := 0;
      planted := 0;
      growing := 0;
      seedLibrary := [];
      mutationRate := 0.1;
    }

    /** `generateDNA`: one symbol per code unit of the serialised payload, then cut to 32. */
    method GenerateDna(data: Value) returns (dna: string)
      ensures dna == Dna(stringify(data))
      ensures |dna| == Min(32, |Utf16(stringify(data))|)
      ensures forall k :: 0 <= k < |dna| ==> 'A' <= dna[k] <= 'Z'
    {
      var units := Utf16(stringify(data));
      var full := "";
      for i := 0 to |units|
        invariant |full| == i
        invariant forall k :: 0 <= k < i ==> full[k] == Symbol(units[k])
      {
        full := full + [Symbol(units[i])];
      }
      dna := full[..Min(32, |full|)];
      DnaShape(stringify(data));
    }

    /**
     * `mutateSeed`: with a draw below the rate, both counters rise by one, at most one key
     * of the payload changes and the DNA is recomputed; otherwise the seed is untouched.
     */
    method MutateSeed(seed: Seed, rate: real, draws: Draws)
      requires UnitDraws(draws)
      requires draws.chance < rate ==> !seed.data.Null?
      modifies seed
      ensures draws.chance >= rate ==> unchanged(seed)
      ensures draws.chance < rate ==>
        && seed.mutations == old(seed.mutations) + 1
        && seed.generation == old(seed.generation) + 1
        && seed.data == MutateData(old(seed.data), draws)
        && seed.dna == Dna(stringify(seed.data))
        && seed.id == old(seed.id) && seed.kind == old(seed.kind)
        && seed.timestamp == old(seed.timestamp) && seed.bpm == old(seed.bpm)
    {
      if draws.chance < rate {
        seed.mutations := seed.mutations + 1;
        seed.generation := seed.generation + 1;
        match seed.data {
          case Obj(fields) =>
            if |fields| > 0 {
              var i := PickIndex(draws.keyPick, |fields|);
              seed.data := Obj(fields[i := (fields[i].0, MutateValue(fields[i].1, draws.jitter, draws.suffix))]);
            }
          case Arr(items) =>
            if |items| > 0 {
              var i := PickIndex(draws.keyPick, |items|);
              seed.data := Arr(items[i := MutateValue(items[i], draws.jitter, draws.suffix)]);
            }
          case _ =>
        }
        seed.dna := GenerateDna(seed.data);
      }
    }

    /**
     * `generate`: builds a first-generation seed, mutates it when asked, and appends
     * exactly that seed to the library.
     */
    method Generate(options: GenerateOptions, host: SeedHost) returns (seed: Seed)
      requires Valid()
      requires UnitDraws(host.draws)
      requires options.mutate && host.draws.chance < OrDefault(options.mutationRate, mutationRate) ==>
        !OrDefault(options.data, Obj([])).Null?
      modifies this`seedLibrary, this`generated
      ensures Valid()
      ensures fresh(seed)
      ensures seedLibrary == old(seedLibrary) + [seed] && generated == old(generated) + 1
      ensures seed.id == host.id && seed.kind == OrDefault(options.kind, "pageview")
      ensures seed.timestamp == host.now && seed.bpm == BpmStamp(host.rhythmBpm)
      ensures seed.generation == seed.mutations + 1 && seed.dna == Dna(stringify(seed.data))
      ensures var data := OrDefault(options.data, Obj([]));
        if options.mutate && host.draws.chance < OrDefault(options.mutationRate, mutationRate)
        then seed.generation == 2 && seed.data == MutateData(data, host.draws)
        else seed.generation == 1 && seed.mutations == 0 && seed.data == data
    {
      var data := OrDefault(options.data, Obj([]));
      var rate := OrDefault(options.mutationRate, mutationRate);
      var dna := GenerateDna(data);
      seed := new Seed(host.id, OrDefault(options.kind, "pageview"), data, host.now, BpmStamp(host.rhythmBpm), dna);
      if options.mutate {
        MutateSeed(seed, rate, host.draws);
      }
      seedLibrary := seedLibrary + [seed];
      generated := generated + 1;
    }

    /**
     * `plant`: without a container nothing happens and null is returned. Otherwise a copy
     * of the seed is mutated (when the rate is positive) and counted as planted and
     * growing; the seed passed in and the library are never modified.
     */
    method Plant(seed: Seed, containerFound: bool, mutate: real, draws: Draws) returns (planted: Seed?)
      requires UnitDraws(draws)
      requires containerFound && mutate > 0.0 && draws.chance < mutate ==> !seed.data.Null?
      modifies this`planted, this`growing
      ensures unchanged(seed)
      ensures !containerFound ==> planted == null && this.planted == old(this.planted) && growing == old(growing)
      ensures containerFound ==>
        && planted != null && fresh(planted)
        && this.planted == old(this.planted) + 1 && growing == old(growing) + 1
        && planted.id == seed.id && planted.kind == seed.kind
        && planted.timestamp == seed.timestamp && planted.bpm == seed.bpm
        && if mutate > 0.0 && draws.chance < mutate
           then planted.mutations == seed.mutations + 1 && planted.generation == seed.generation + 1
                && planted.data == MutateData(seed.data, draws) && planted.dna == Dna(stringify(planted.data))
           else planted.mutations == seed.mutations && planted.generation == seed.generation
                && planted.data == seed.data && planted.dna == seed.dna
    {
      if !containerFound {
        return null;
      }
      var copy := new Seed.Copy(seed);
      if mutate > 0.0 {
        MutateSeed(copy, mutate, draws);
      }
      this.planted := this.planted + 1;
      growing := growing + 1;
      planted := copy;
    }

    /** `getStats()`: the counters and the last (at most) five seeds of the library. */
    function Stats(): (st: SeedStats)
      reads this
      ensures st.generated == generated && st.planted == planted && st.growing == growing
      ensures st.librarySize == |seedLibrary| && st.mutationRate == mutationRate
      ensures |st.recentSeeds| == Min(5, |seedLibrary|)
      ensures forall k :: 0 <= k < |st.recentSeeds| ==>
        st.recentSeeds[k] == seedLibrary[|seedLibrary| - |st.recentSeeds| + k]
    {
      SeedStats(generated, planted, growing, |seedLibrary|, mutationRate, Last(seedLibrary, 5))
    }

    /** `clear`: empties the library and zeroes the counters; the mutation rate stays. */
    method Clear()
      modifies this`seedLibrary, this`generated, this`planted, this`growing
      ensures Valid()
      ensures seedLibrary == [] && generated == 0 && planted == 0 && growing == 0
    {
      seedLibrary := [];
      generated := 0;
      planted := 0;
      growing := 0;
    }

    /**
     * `import`: `parsed` is the outcome of `JSON.parse`. On success the parsed seeds are
     * appended and counted as generated; on a parse failure nothing changes.
     */
    method Import(parsed: Option<seq<Seed>>) returns (ok: bool)
      requires Valid()
      modifies this`seedLibrary, this`generated
      ensures Valid()
      ensures ok <==> parsed.Some?
      ensures ok ==> seedLibrary == old(seedLibrary) + parsed.value && generated == old(generated) + |parsed.value|
      ensures !ok ==> seedLibrary == old(seedLibrary) && generated == old(generated)
    {
      match parsed {
        case None =>
          ok := false;
        case Some(seeds) =>
          seedLibrary := seedLibrary + seeds;
          generated := generated + |seeds|;
          ok := true;
      }
    }
  }
}
